=== FILE: README.md ===
# RiseFlashTool main window: decision logic in Dafny

RiseFlashTool (PosiFlashTool in its enterprise branding) is a WPF front end for
`flashrom`: the operator picks the serial port of a `serprog` programmer, then
writes a firmware image to a chip, backs it up, or probes it. All of the logic
sits in one window class, `MainWindow.xaml.cs`. This project models the parts of
that class that decide things. They are written as pure functions over an
immutable window record (`Session.Ui`) and a file system held as a map
(`FileStore.Fs`):

- **Port reconciliation** (`Reconciler.Reconcile`). This is one run of
  `AutoDetectPorts`, together with the combo box's selection handler and
  `UpdateConnectionStatus`. The new port list is compared with the known list
  by length only. Refilling the list with the handler detached drops the
  selection without any event. After that the step re-selects the first new
  port, reports a removed port, or re-selects the previous port.
- **Programmer spec and command lines** (`Programmer`). The spec is
  `serprog:dev=<port>:<baud>`, with a default baud of 115200. The command
  lines are `-p <spec>`, optionally followed by ` -w "<path>"` or
  ` -r "<path>"`. Parsers show that these strings can be read back unchanged, for ports
  without ':' and specs without blanks.
- **Subprocess result rule** (`Runner`). Only output lines that are not blank
  reach the console, each as a CMD event. A missing executable or a non-zero
  exit code becomes a fault.
- **Smart backup outcome** (`Backup.StoreDumps`, `Operations.SmartBackup`).
  Two reads go to scratch files, which are then compared byte for byte. Equal
  dumps are copied to the destination. Different dumps are kept as
  `.err1`/`.err2`. Both scratch files are deleted.
- **Button handlers** (`Operations`). These cover the write gating (port,
  firmware path after the prompt, confirmation), the read and detect buttons,
  and the file comparison. The comparison uses a loop (`FileStore.SequenceEqual`).
- **Console and status line** (`Events.Log`). Every event is appended to the
  console. All events except CMD also replace the status line.

Inputs the window gets from the operating system or the operator are passed as
parameters:

- the port enumeration;
- dialog answers: `None` for a cancelled dialog, `bool` for Yes/No;
- whether `flashrom.exe` exists;
- the process outcome, as an exit code and the output lines in arrival order;
- the image a read leaves at its target path;
- the temp directory.

## Behaviour of the program worth knowing

- There is no busy check. `LockUI` only disables the window, and the detect
  button starts flashrom without awaiting it, so nothing rejects a second run.
- The read button always performs the smart backup. There is no single,
  unverified read.
- The port step compares list lengths only. When the list grows it picks the
  first new port in enumeration order.
- The step does not always recompute the indicator:
  - `Reconciler.SwapKeepsStaleIndicator`: when one port is swapped for
    another, the indicator still says "Conectado: COM5" after COM5 is gone.
  - `Reconciler.ShrinkKeepsStaleIndicator`: when the list shrinks but the
    selected port survives, the selection is dropped and the indicator still
    says connected.
- A write with no pre-selected firmware opens the file picker instead of
  failing. It stops silently if the picker is cancelled.
- Choosing a scratch file as the backup destination goes wrong when the two
  dumps are equal. The first scratch file makes the copy throw, and the scratch
  files are kept. The second scratch file is reported as saved and then
  deleted (`Backup.ScratchDestinationLost`). When the dumps differ, the copies
  go to `<scratch>.err1`/`.err2` and nothing throws.
- A failure of the detect run is never reported. The comparison button does not
  catch a missing file: the model returns `Crashed`.

## Model

| member | source | states |
|---|---|---|
| Faults.MessageIdentifies | MainWindow.xaml.cs:282-300 | the message of each fault (executable not found, process failed, missing file, copy onto itself) is distinct, so the logged text names the fault and its file |
| Events.Log | MainWindow.xaml.cs:342-351 | every event is appended to the console; every level but CMD replaces the status line, CMD leaves it alone |
| Events.LogKeepsStatus | MainWindow.xaml.cs:349 | after any `Log` call the status line still shows the message of the last non-CMD event |
| Events.CmdEvents | MainWindow.xaml.cs:292-293 | one CMD event per output line, carrying that line, in the same order |
| Events.LogLines | MainWindow.xaml.cs:292-293 | logging lines one by one as CMD appends exactly one CMD event per line, in order, and never touches the status line |
| Events.LogLinesKeepsStatus | MainWindow.xaml.cs:292-293 | subprocess output never breaks the status-line invariant |
| Text.LastSeparator | MainWindow.xaml.cs:316 | the index found is -1 or a separator, and no separator follows it |
| Text.FileName | MainWindow.xaml.cs:316 | the file name is a separator-free suffix of the path that starts right after the last separator (or is the whole path) |
| Ports.ExceptFrom | MainWindow.xaml.cs:106 | `Except` yields exactly the elements of the new list outside the old one, each once, and its head is the first such element in the new list's order |
| Ports.FirstOutsideUnique | MainWindow.xaml.cs:106 | "first new port in enumeration order" names a single port |
| Ports.NewPort | MainWindow.xaml.cs:106-107 | `Except(...).FirstOrDefault()` is null exactly when every new port was already known, and otherwise is the first new port |
| Ports.GrowthHasNewPort | MainWindow.xaml.cs:104-107 | pigeonhole: a duplicate-free enumeration longer than the known list always contains a port the known list lacks, so the null branch is never taken |
| Session.UpdateConnectionStatus | MainWindow.xaml.cs:146-150 | the indicator becomes the given connection state and text, and nothing else in the window changes |
| Session.OnSelectionChanged | MainWindow.xaml.cs:132-150 | a selection shows connected with "Conectado: <port>" and logs one INFO event; no selection shows "Selecione uma porta..." and logs nothing |
| Session.SelectItem | MainWindow.xaml.cs:132-144 | the handler runs only when the selected item really changes to a listed port or to none; otherwise the window is unchanged |
| Session.Load | MainWindow.xaml.cs:56-86 | at start the list is the start enumeration, nothing is selected, the indicator shows the prompt, the console holds only the "Sistema iniciado." INFO event, which is also the status line, and the invariants hold |
| Session.SelectItemKeepsWf | MainWindow.xaml.cs:132-144 | operator selection keeps "a selected port is listed and shown as connected" and the status-line invariant |
| Reconciler.Reconcile | MainWindow.xaml.cs:90-129 | growth selects the first unknown port (connected, INFO then SUCCESS), or drops the selection if none exists; a shrink that removed the selected port shows "Dispositivo desconectado" with exactly one WARN, and any other shrink only drops the selection; same length re-selects a non-empty surviving port (connected, INFO), else drops it; the known list becomes the enumeration on every path; a selected port afterwards is listed and shown as connected |
| Reconciler.ReconcileKeepsWf | MainWindow.xaml.cs:90-129 | a reconciliation step keeps the window's invariants |
| Reconciler.ReconcileIdempotent | MainWindow.xaml.cs:122-128 | running the step again on the same enumeration keeps the first run's selection, indicator and list (port names being non-empty) |
| Reconciler.EmptyNameNotReaffirmed | MainWindow.xaml.cs:124 | an empty port name selected by one step is dropped by the next, which is why idempotence needs non-empty names |
| Reconciler.GrowthAlwaysConnects | MainWindow.xaml.cs:104-113 | with a duplicate-free enumeration, growth always ends selected and connected |
| Reconciler.RemovalDisconnects | MainWindow.xaml.cs:114-120 | removal of the selected port in a shrink leaves the indicator not connected and nothing selected after one step |
| Reconciler.ShrinkKeepsStaleIndicator | MainWindow.xaml.cs:114-121 | a shrink that keeps the selected port drops the selection yet leaves the indicator connected to it |
| Reconciler.SwapKeepsStaleIndicator | MainWindow.xaml.cs:122-126 | swapping COM5 for COM7 drops the selection while the indicator still says "Conectado: COM5" |
| Reconciler.AttachScenario | MainWindow.xaml.cs:104-113 | {COM3} becoming {COM3, COM5} selects COM5, connected, with the SUCCESS message on the status line |
| Reconciler.DetachScenario | MainWindow.xaml.cs:114-120 | unplugging the selected COM5 from {COM3, COM5} logs the WARN and disconnects |
| Programmer.EffectiveBaud | MainWindow.xaml.cs:274 | the baud used is "115200" when the baud box's text is null or white space, and that text otherwise; it is never blank |
| Programmer.ProgrammerSpec | MainWindow.xaml.cs:271-276 | the spec is absent exactly when no port is selected, and otherwise is "serprog:dev=" + port + ":" + baud |
| Programmer.SpecRoundTrip | MainWindow.xaml.cs:275 | for a port without ':' the spec can be split back into that port and the baud used |
| Programmer.Arguments | MainWindow.xaml.cs:199 | every command line starts with "-p " followed by the spec |
| Programmer.ArgumentsRoundTrip | MainWindow.xaml.cs:199 | for a spec without blanks the detect, write and read command lines can be read back to their spec, flag and path |
| Programmer.WriteInvocationRoundTrip | MainWindow.xaml.cs:199 | for a port without ':' or blanks and a baud without blanks, the write command line names exactly that port, that baud and that image |
| Runner.VisibleLines | MainWindow.xaml.cs:292-293 | the logged lines are exactly the lines that are not null or white space: none blank, none invented, none dropped, all kept when none is blank |
| Runner.VisibleLinesAppend | MainWindow.xaml.cs:292-296 | filtering the output line by line as it streams in equals filtering it all at once |
| Runner.RunFlashrom | MainWindow.xaml.cs:278-302 | a process starts exactly when the executable exists; the run succeeds exactly when it exists and exits with 0; the fault is "not found" or "process failed"; the visible lines are logged as CMD and the status line is untouched |
| Runner.RunKeepsStatus | MainWindow.xaml.cs:292-293 | a flashrom run keeps the status-line invariant |
| FileStore.ReadAllBytes | MainWindow.xaml.cs:243 | reading succeeds exactly for an existing file, with its contents; otherwise it fails naming the file |
| FileStore.Copy | MainWindow.xaml.cs:247 | an overwriting copy puts the source's bytes at the destination and changes no other file; it fails exactly when the source is missing or is the destination itself, naming the source |
| FileStore.DeleteIfExists | MainWindow.xaml.cs:257-258 | only the given file is removed |
| FileStore.SequenceEqual | MainWindow.xaml.cs:317 | the loop answers true exactly when both byte sequences are equal |
| Backup.StoreDumps | MainWindow.xaml.cs:243-258 | a missing first or second scratch file fails with that file's name before anything is written; with both present it fails exactly when the copy the comparison calls for has a scratch file as its own destination, which keeps both scratch files; otherwise both scratch files are gone and the verdict is Saved exactly when the dumps are equal |
| Backup.StoreDumpsPlacement | MainWindow.xaml.cs:245-255 | when the destination names are not scratch files: equal dumps land at the destination with .err1/.err2 untouched, different dumps land at .err1/.err2 with the destination untouched, and no other file changes |
| Backup.ScratchDestinationLost | MainWindow.xaml.cs:245-258 | with the second scratch file as the destination and equal dumps, the verdict is Saved, yet no file remains at the destination |
| Backup.NoDumpLost | MainWindow.xaml.cs:245-255 | no read is lost: a saved backup holds the bytes both reads agreed on, and a mismatch keeps each read under its own name |
| Operations.SelectFile | MainWindow.xaml.cs:153-165 | a chosen file becomes the firmware with one INFO event; a cancelled dialog changes nothing |
| Operations.PromptForFirmware | MainWindow.xaml.cs:180-187 | with a pre-selected path the window is unchanged; otherwise the prompt WARN is logged, then the picked file becomes the firmware with its INFO event, while a cancelled picker leaves the firmware as it was; the port, baud and indicator are untouched |
| Operations.WriteFirmware | MainWindow.xaml.cs:168-213 | nothing starts when no port is selected, the path is still empty after the prompt, or the operator does not confirm; otherwise exactly one flashrom run with `-p <spec> -w "<path>"` if the executable exists, and success exactly on exit code 0; after the prompt's events, the console gets the start WARN, the visible output as CMD and one closing SUCCESS or ERROR event; with a port selected the firmware is the path after the prompt; the baud text never changes |
| Operations.PreselectedWriteEvents | MainWindow.xaml.cs:180-201 | with a pre-selected path and a Yes, the write runs on that path and logs exactly the start WARN, the visible output and the verdict |
| Operations.PromptedWriteStarts | MainWindow.xaml.cs:180-199 | with no pre-selected path, a file picked at the prompt becomes the firmware, and after a Yes it is the path written |
| Operations.PromptedWriteEvents | MainWindow.xaml.cs:180-206 | that write logs the prompt WARN, the INFO naming the file, the start WARN, the visible output and the verdict, in this order |
| Operations.ReadInto | MainWindow.xaml.cs:236-240 | a read starts exactly when the executable exists, succeeds exactly when it also exits with 0, logs what `RunFlashrom` logs, and changes no file but its target, which holds the image it left; a read that leaves no image changes no file at all |
| Operations.Validate | MainWindow.xaml.cs:242-260 | the comparison never skips, adds exactly the "Validando integridade..." WARN and one closing event to the console, and leaves the files as `StoreDumps` does; it aborts exactly when `StoreDumps` throws, with that fault logged as the last "Erro:" event; otherwise the verdict is that of `StoreDumps`, closed by the SUCCESS or the integrity ERROR |
| Operations.SmartBackup | MainWindow.xaml.cs:216-262 | the backup is skipped exactly when no port is selected or the save dialog is cancelled, and then starts nothing and changes no file; no port logs one ERROR, and a cancelled dialog leaves the window and console unchanged; otherwise the first read, then the second read only if the first succeeded, each with `-p <spec> -r "<scratch>"` |
| Operations.BackupEventsWithoutExecutable | MainWindow.xaml.cs:228-260 | without the executable a started backup logs "--- INICIANDO SMART BACKUP ---", "Lendo (1/2)..." and the "Erro:" of the missing executable, and nothing else |
| Operations.BackupEventsFirstReadFails | MainWindow.xaml.cs:228-260 | a first read that exits non-zero logs the two opening INFO events, its visible output as CMD and "Erro: Processo flashrom falhou.", and nothing else |
| Operations.BackupEventsFirstReadSucceeds | MainWindow.xaml.cs:228-260 | after a successful first read the console gets, in order, the opening INFO events, that read's output, "Verificando (2/2)...", the second read's output, then either the "Erro:" of a failed second read or the WARN and the closing event of the comparison |
| Operations.SmartBackupAborts | MainWindow.xaml.cs:228-260 | a missing executable aborts with "not found" and changes no file; a read with a non-zero exit aborts with "process failed"; every abort ends the console with its "Erro:" event |
| Operations.SmartBackupStores | MainWindow.xaml.cs:237-258 | when both reads succeed and leave images: verdict Saved exactly when the images are equal, and the destination, .err1 and .err2 hold the images as the outcome rule says; the scratch files are gone, no other file changes, and the last event is the SUCCESS or the integrity ERROR |
| Operations.DetectChip | MainWindow.xaml.cs:304-309 | no port gives one WARN; otherwise flashrom runs with `-p <spec>` alone if present, its visible output is logged, and a failure is never reported |
| Operations.CompareFiles | MainWindow.xaml.cs:311-319 | a cancelled dialog does nothing; a missing file crashes after the INFO line, naming the first file that is missing; otherwise the verdict is "identical" exactly when the contents are equal, logged as SUCCESS or ERROR, and it is the status line; the status-line invariant is kept |
| Invariants.SelectFileKeepsWf | MainWindow.xaml.cs:153-165 | picking a firmware file keeps the window's invariants |
| Invariants.PromptKeepsWf | MainWindow.xaml.cs:180-187 | the firmware prompt keeps the window's invariants |
| Invariants.WriteKeepsWf | MainWindow.xaml.cs:168-213 | the write button keeps the window's invariants |
| Invariants.DetectKeepsWf | MainWindow.xaml.cs:304-309 | the detect button keeps the window's invariants |
| Invariants.BackupKeepsWf | MainWindow.xaml.cs:216-262 | the read button keeps the window's invariants |
| Invariants.ValidateKeepsStatus | MainWindow.xaml.cs:242-260 | the comparison step of the backup keeps the status-line invariant |

## Left out

- The device-change hook `WndProc` and its 500 ms delay (lines 41-52). These are OS messages and timers. One reconciliation step is modelled as an atomic call.
- `Dispatcher.Invoke`, thread-pool execution and the interleaving of asynchronous log calls. Each operation runs to completion. The output lines of a run arrive as one sequence in an order chosen by the caller, and the detect run is treated as if it were awaited.
- `LockUI`. It only disables the window and sets the wait cursor.
- Message boxes, file dialogs, colours, branding (`IS_ENTERPRISE`), the title bar, the About window, the console clear button and timestamps. Dialogs are reduced to their answers.
- The exit of the program when `flashrom.exe` is missing at start-up (lines 81-85).
- The size label of the file picker (line 162), which is a floating-point division.
- `Operations.WriteFirmware`: the file size in the write confirmation (lines 190-191) is not modelled, nor the `FileNotFoundException` raised there when the pre-selected firmware file has disappeared.
- `Operations.SelectFile`: the `FileInfo` exception on an empty file name is not modelled. The dialog never returns one.
- `Text.FileName`: splits only at `\` and `/`. It does not treat a drive prefix such as `C:name` as a root.
- `FileStore.Copy`: the message of the exception for a copy onto itself is the Windows sharing-violation text; other platforms word it differently.
- `FileStore.Copy`: the map has no permissions, attributes or folders, so no read, copy or delete (lines 243, 247, 252-253, 257-258) fails for any reason other than a missing file or a copy onto itself. `Backup.StoreDumps` therefore reports Saved where the program throws on a read-only or folder destination, logs "Erro:" and keeps both scratch files.
- `FileStore.Copy`: files are identified by their exact path string. Windows compares paths without regard to case and accepts 8.3 short names, so two spellings of one file are two files here. `Backup.SelfCopy`, `Backup.DistinctTargets` and `Backup.ScratchDestinationLost` are therefore about spellings, not files: a destination such as `DUMP1.BIN` in the temp folder makes the program's copy throw, while the model reports it as saved.
- `Backup.StoreDumpsPlacement`, `Backup.NoDumpLost` and `Operations.SmartBackupStores`: stated only when the destination and its `.err1`/`.err2` names are not scratch files (`DistinctTargets`). `Backup.StoreDumps` and `Backup.ScratchDestinationLost` state what happens otherwise.
- .NET exceptions other than a missing file and a copy onto itself are not modelled, nor are their messages.
- The label that shows the backup file name (line 234).
- `Path.Combine(Path.GetTempPath(), ...)` (lines 225-226) is modelled as concatenation with a temp directory passed in; `GetTempPath` always ends with a separator.
- `Reconciler.ReconcileIdempotent`: stated for enumerations whose port names are non-empty, as serial port names are. `Reconciler.EmptyNameNotReaffirmed` shows what happens otherwise.
- `Programmer.ArgumentsRoundTrip`: stated for specs without blanks. Windows command-line quoting is not modelled.
- `Programmer.SpecRoundTrip`: stated for ports without ':'. Windows serial port names contain none.
- `Programmer.WriteInvocationRoundTrip`: stated for a port without ':' or blanks and a baud without blanks. The baud box accepts text such as "115 200", and the command line of such a baud splits at the blank. Windows command-line quoting is not modelled.
- `Session.Load`: the banner line that replaces the console text at start-up ("RiseFlashTool inicializado") is not a logged event and is left out. The model starts from an empty console, so earlier events are not kept.

=== FILE: backup.dfy ===
/** The outcome rule of the smart backup: after two reads into scratch files,
    compare them, keep one copy or both divergent copies, remove the scratch
    files. */
module Backup {
  import opened Wrappers
  import opened Faults
  import opened FileStore

  datatype Verdict = Saved | Mismatch

  /** The file system after the rule, and its outcome: the verdict, or the
      exception that stopped it. */
  datatype Stored = Stored(fs: Fs, outcome: Result<Verdict, Fault>)

  function Err1(final: Path): Path { final + ".err1" }

  function Err2(final: Path): Path { final + ".err2" }

  /** The destination and its two mismatch names are not the scratch files,
      and the two scratch files differ. */
  predicate DistinctTargets(temp1: Path, temp2: Path, final: Path)
  {
    && temp1 != temp2
    && final != temp1 && final != temp2
    && Err1(final) != temp1 && Err1(final) != temp2
    && Err2(final) != temp1 && Err2(final) != temp2
  }

  /** Both scratch files exist and the copy their comparison calls for would
      write a scratch file onto itself. */
  predicate SelfCopy(fs: Fs, temp1: Path, temp2: Path, final: Path)
  {
    && temp1 in fs && temp2 in fs
    && if fs[temp1] == fs[temp2] then final == temp1 else Err1(final) == temp1 || Err2(final) == temp2
  }

  /** Equal dumps are copied to the destination; different dumps are copied to
      "<destination>.err1" and "<destination>.err2"; then both scratch files
      are deleted. A scratch file that cannot be read throws before anything
      is written, and a copy that throws skips the deletions. */
  function StoreDumps(fs: Fs, temp1: Path, temp2: Path, final: Path): (r: Stored)
    ensures temp1 !in fs ==> r == Stored(fs, Failure(FileMissing(temp1)))
    ensures temp1 in fs && temp2 !in fs ==> r == Stored(fs, Failure(FileMissing(temp2)))
    ensures temp1 in fs && temp2 in fs ==> (r.outcome.Failure? <==> SelfCopy(fs, temp1, temp2, final))
    ensures SelfCopy(fs, temp1, temp2, final) ==>
              && r.outcome.error
                 == CopyOntoItself(if fs[temp1] == fs[temp2] || Err1(final) == temp1 then temp1 else temp2)
              && SameAt(fs, r.fs, temp1) && SameAt(fs, r.fs, temp2)
    ensures temp1 in fs && temp2 in fs && !SelfCopy(fs, temp1, temp2, final) ==>
              && temp1 !in r.fs && temp2 !in r.fs
              && (r.outcome.value == Saved <==> fs[temp1] == fs[temp2])
  {
    match ReadAllBytes(fs, temp1)
    case Failure(e) => Stored(fs, Failure(e))
    case Success(dump1) =>
      match ReadAllBytes(fs, temp2)
      case Failure(e) => Stored(fs, Failure(e))
      case Success(dump2) =>
        if dump1 == dump2 then
          match Copy(fs, temp1, final)
          case Failure(e) => Stored(fs, Failure(e))
          case Success(copied) =>
            Stored(DeleteIfExists(DeleteIfExists(copied, temp1), temp2), Success(Saved))
        else
          match Copy(fs, temp1, Err1(final))
          case Failure(e) => Stored(fs, Failure(e))
          case Success(copied1) =>
            assert Err1(final)[|final| + 4] != Err2(final)[|final| + 4];
            match Copy(copied1, temp2, Err2(final))
            case Failure(e) => Stored(copied1, Failure(e))
            case Success(copied2) =>
              Stored(DeleteIfExists(DeleteIfExists(copied2, temp1), temp2), Success(Mismatch))
  }

  /** Where the dumps land: equal dumps at the destination with the mismatch
      names untouched, different dumps under the mismatch names with the
      destination untouched; no file other than these and the scratch files
      changes. */
  lemma StoreDumpsPlacement(fs: Fs, temp1: Path, temp2: Path, final: Path)
    requires temp1 in fs && temp2 in fs && DistinctTargets(temp1, temp2, final)
    ensures var s := StoreDumps(fs, temp1, temp2, final);
            && s.outcome.Success?
            && (forall q :: q != final && q != Err1(final) && q != Err2(final) && q != temp1 && q != temp2
                  ==> SameAt(fs, s.fs, q))
            && (fs[temp1] == fs[temp2] ==>
                  && final in s.fs && s.fs[final] == fs[temp1]
                  && SameAt(fs, s.fs, Err1(final)) && SameAt(fs, s.fs, Err2(final)))
            && (fs[temp1] != fs[temp2] ==>
                  && Err1(final) in s.fs && s.fs[Err1(final)] == fs[temp1]
                  && Err2(final) in s.fs && s.fs[Err2(final)] == fs[temp2]
                  && SameAt(fs, s.fs, final))
  {
    assert Err1(final)[|final| + 4] != Err2(final)[|final| + 4];
    if fs[temp1] == fs[temp2] {
      var copied := fs[final := fs[temp1]];
      assert StoreDumps(fs, temp1, temp2, final) == Stored(copied - {temp1} - {temp2}, Success(Saved));
    } else {
      var copied := fs[Err1(final) := fs[temp1]][Err2(final) := fs[temp2]];
      assert StoreDumps(fs, temp1, temp2, final) == Stored(copied - {temp1} - {temp2}, Success(Mismatch));
    }
  }

  /** Whatever the verdict, neither dump is lost: a saved backup holds the
      bytes both reads agreed on, a mismatch keeps each read under its own
      name. */
  lemma NoDumpLost(fs: Fs, temp1: Path, temp2: Path, final: Path)
    requires temp1 in fs && temp2 in fs && DistinctTargets(temp1, temp2, final)
    ensures var s := StoreDumps(fs, temp1, temp2, final);
            match s.outcome
            case Success(Saved) => final in s.fs && s.fs[final] == fs[temp1] == fs[temp2]
            case Success(Mismatch) => Err1(final) in s.fs && Err2(final) in s.fs
                                      && s.fs[Err1(final)] == fs[temp1] && s.fs[Err2(final)] == fs[temp2]
                                      && s.fs[Err1(final)] != s.fs[Err2(final)]
            case Failure(_) => false
  {
    StoreDumpsPlacement(fs, temp1, temp2, final);
  }

  /** Choosing the second scratch file as the destination loses the backup:
      equal dumps are reported as saved, but the copy at the destination is
      the scratch file the rule deletes last. */
  lemma ScratchDestinationLost(fs: Fs, temp1: Path, temp2: Path)
    requires temp1 in fs && temp2 in fs && temp1 != temp2 && fs[temp1] == fs[temp2]
    ensures StoreDumps(fs, temp1, temp2, temp2).outcome == Success(Saved)
    ensures temp2 !in StoreDumps(fs, temp1, temp2, temp2).fs
  {
  }
}

=== FILE: events.dfy ===
/** The console and the status line fed by `Log`. */
module Events {
  import opened Wrappers

  /** The `type` argument of `Log`: the five strings the window passes. */
  datatype Level = Info | Warn | Error | Success | Cmd

  datatype LogEvent = LogEvent(level: Level, message: string)

  /** The console text as a sequence of events (timestamps left out) and the
      text of the status bar label. */
  datatype Console = Console(events: seq<LogEvent>, statusLine: string)

  /** `Log`: every event is appended to the console; all but subprocess output
      also replace the status line. */
  function Log(c: Console, level: Level, message: string): (r: Console)
    ensures r.events == c.events + [LogEvent(level, message)]
    ensures level != Cmd ==> r.statusLine == message
    ensures level == Cmd ==> r.statusLine == c.statusLine
  {
    Console(c.events + [LogEvent(level, message)],
            if level != Cmd then message else c.statusLine)
  }

  /** The last event of the console is `e`. */
  predicate EndsWith(c: Console, e: LogEvent)
  {
    |c.events| > 0 && c.events[|c.events| - 1] == e
  }

  /** The message of the last event that is not subprocess output. */
  function LastStatus(events: seq<LogEvent>): Option<string>
  {
    if events == [] then None
    else if events[|events| - 1].level != Cmd then Some(events[|events| - 1].message)
    else LastStatus(events[..|events| - 1])
  }

  /** The status line shows the last non-output event, once there is one. */
  predicate StatusReflectsLog(c: Console)
  {
    LastStatus(c.events).Some? ==> c.statusLine == LastStatus(c.events).value
  }

  /** Appending any event through `Log` keeps the status line in step. */
  lemma LogKeepsStatus(c: Console, level: Level, message: string)
    requires StatusReflectsLog(c)
    ensures StatusReflectsLog(Log(c, level, message))
  {
    var es := c.events + [LogEvent(level, message)];
    assert es[..|es| - 1] == c.events;
  }

  /** The events one `Log(line, "CMD")` per line adds, in order. */
  function CmdEvents(lines: seq<string>): (r: seq<LogEvent>)
    ensures |r| == |lines|
    ensures forall i :: 0 <= i < |lines| ==> r[i] == LogEvent(Cmd, lines[i])
  {
    if lines == [] then [] else [LogEvent(Cmd, lines[0])] + CmdEvents(lines[1..])
  }

  /** Logging each line as subprocess output, one `Log` call after another. */
  function LogLines(c: Console, lines: seq<string>): (r: Console)
    ensures r.events == c.events + CmdEvents(lines)
    ensures r.statusLine == c.statusLine
    decreases lines
  {
    if lines == [] then c
    else
      assert CmdEvents(lines) == [LogEvent(Cmd, lines[0])] + CmdEvents(lines[1..]);
      assert c.events + CmdEvents(lines)
          == (c.events + [LogEvent(Cmd, lines[0])]) + CmdEvents(lines[1..]);
      LogLines(Log(c, Cmd, lines[0]), lines[1..])
  }

  /** Subprocess output never disturbs what the status line reflects. */
  lemma {:induction false} LogLinesKeepsStatus(c: Console, lines: seq<string>)
    requires StatusReflectsLog(c)
    ensures StatusReflectsLog(LogLines(c, lines))
    decreases lines
  {
    if lines != [] {
      LogKeepsStatus(c, Cmd, lines[0]);
      LogLinesKeepsStatus(Log(c, Cmd, lines[0]), lines[1..]);
    }
  }
}

=== FILE: faults.dfy ===
/** The exceptions the window's operations can run into, with the message text
    that ends up in the console. */
module Faults {

  type Path = string

  datatype Fault =
    | ExecutableNotFound      // thrown by the runner before spawning
    | ProcessFailed           // thrown by the runner on a non-zero exit code
    | FileMissing(path: Path) // FileNotFoundException from a file read or copy
    | CopyOntoItself(path: Path) // IOException from a copy whose source is its destination

  const MissingPrefix: string := "Could not find file '"
  const MissingSuffix: string := "'."
  const InUsePrefix: string := "The process cannot access the file '"
  const InUseSuffix: string := "' because it is being used by another process."

  /** The `Message` property of the exception, as logged after "Erro: " or
      "Falha na gravação: ". */
  function Message(f: Fault): string
  {
    match f
    case ExecutableNotFound => "Executável não encontrado."
    case ProcessFailed => "Processo flashrom falhou."
    case FileMissing(p) => MissingPrefix + p + MissingSuffix
    case CopyOntoItself(p) => InUsePrefix + p + InUseSuffix
  }

  /** The logged text names the fault: different exceptions, or the same
      exception about different files, never read the same in the console. */
  lemma MessageIdentifies(f: Fault, g: Fault)
    requires Message(f) == Message(g)
    ensures f == g
  {
    var m := Message(f);
    assert m[0] == Message(g)[0];
    if f.FileMissing? && g.FileMissing? {
      assert f.path == m[|MissingPrefix|..|m| - |MissingSuffix|];
      assert g.path == m[|MissingPrefix|..|m| - |MissingSuffix|];
    } else if f.CopyOntoItself? && g.CopyOntoItself? {
      assert f.path == m[|InUsePrefix|..|m| - |InUseSuffix|];
      assert g.path == m[|InUsePrefix|..|m| - |InUseSuffix|];
    }
  }
}

=== FILE: filestore.dfy ===
/** The file system as a map from path to contents, and the `File` calls the
    window makes on it. */
module FileStore {
  import opened Wrappers
  import opened Faults

  newtype byte = x: int | 0 <= x < 256

  type Bytes = seq<byte>

  type Fs = map<Path, Bytes>

  /** `File.ReadAllBytes`. */
  function ReadAllBytes(fs: Fs, p: Path): (r: Result<Bytes, Fault>)
    ensures r.Success? <==> p in fs
    ensures r.Success? ==> r.value == fs[p]
    ensures r.Failure? ==> r.error == FileMissing(p)
  {
    if p in fs then Success(fs[p]) else Failure(FileMissing(p))
  }

  /** `File.Copy(src, dst, true)`: the destination is created or overwritten;
      a missing source throws, and so does a source that is its own
      destination (the file is open for reading while it would be
      rewritten). */
  function Copy(fs: Fs, src: Path, dst: Path): (r: Result<Fs, Fault>)
    ensures r.Success? <==> src in fs && src != dst
    ensures r.Success? ==> r.value.Keys == fs.Keys + {dst} && r.value[dst] == fs[src]
    ensures r.Success? ==> forall q :: q in fs && q != dst ==> r.value[q] == fs[q]
    ensures r.Failure? ==> r.error == (if src !in fs then FileMissing(src) else CopyOntoItself(src))
  {
    if src !in fs then Failure(FileMissing(src))
    else if src == dst then Failure(CopyOntoItself(src))
    else Success(fs[dst := fs[src]])
  }

  /** `if (File.Exists(p)) File.Delete(p);` */
  function DeleteIfExists(fs: Fs, p: Path): (r: Fs)
    ensures r.Keys == fs.Keys - {p}
    ensures forall q :: q in r ==> r[q] == fs[q]
  {
    fs - {p}
  }

  /** The path holds the same contents (or is absent) in both file systems. */
  predicate SameAt(fs: Fs, fs': Fs, p: Path)
  {
    (p in fs <==> p in fs') && (p in fs ==> fs[p] == fs'[p])
  }

  /** `SequenceEqual` over two byte arrays: equal lengths, then equal bytes at
      every index. */
  method SequenceEqual(a: Bytes, b: Bytes) returns (equal: bool)
    ensures equal <==> a == b
  {
    if |a| != |b| {
      return false;
    }
    var i := 0;
    while i < |a|
      invariant 0 <= i <= |a|
      invariant a[..i] == b[..i]
    {
      if a[i] != b[i] {
        return false;
      }
      assert a[..i + 1] == a[..i] + [a[i]];
      assert b[..i + 1] == b[..i] + [b[i]];
      i := i + 1;
    }
    assert a == a[..i] && b == b[..i];
    return true;
  }
}

=== FILE: invariants.dfy ===
/** Every button handler keeps the window's invariants. */
module Invariants {
  import opened Wrappers
  import opened Text
  import opened Events
  import opened Faults
  import opened Session
  import opened Runner
  import opened FileStore
  import opened Backup
  import opened Operations

  lemma SelectFileKeepsWf(ui: Ui, picked: Option<Path>)
    requires Wf(ui)
    ensures Wf(SelectFile(ui, picked))
  {
    if picked.Some? {
      LogKeepsStatus(ui.console, Info, LoadedMessage(picked.value));
    }
  }

  lemma PromptKeepsWf(ui: Ui, picked: Option<Path>)
    requires Wf(ui)
    ensures Wf(PromptForFirmware(ui, picked))
  {
    if IsNullOrEmpty(ui.firmware) {
      LogKeepsStatus(ui.console, Warn, PromptWarning);
      SelectFileKeepsWf(ui.(console := Log(ui.console, Warn, PromptWarning)), picked);
    }
  }

  lemma WriteKeepsWf(ui: Ui, picked: Option<Path>, confirmed: bool, exeExists: bool, proc: ProcessResult)
    requires Wf(ui)
    ensures Wf(WriteFirmware(ui, picked, confirmed, exeExists, proc).ui)
  {
    LogKeepsStatus(ui.console, Error, NoPortError);
    PromptKeepsWf(ui, picked);
    var u := PromptForFirmware(ui, picked);
    LogKeepsStatus(u.console, Warn, WriteStart);
    var c := Log(u.console, Warn, WriteStart);
    RunKeepsStatus(c, exeExists, proc);
    var run := RunFlashrom(c, exeExists, proc);
    LogKeepsStatus(run.console, Level.Success, WriteDone);
    if run.fault.Some? {
      LogKeepsStatus(run.console, Error, WriteFailedMessage(run.fault.value));
    }
  }

  lemma DetectKeepsWf(ui: Ui, exeExists: bool, proc: ProcessResult)
    requires Wf(ui)
    ensures Wf(DetectChip(ui, exeExists, proc).ui)
  {
    LogKeepsStatus(ui.console, Warn, DetectWarning);
    RunKeepsStatus(ui.console, exeExists, proc);
  }

  lemma BackupKeepsWf(ui: Ui, fs: Fs, save: Option<Path>, tempDir: Path, exeExists: bool,
                      read1: DumpRun, read2: DumpRun)
    requires Wf(ui)
    ensures Wf(SmartBackup(ui, fs, save, tempDir, exeExists, read1, read2).ui)
  {
    LogKeepsStatus(ui.console, Error, SelectPortError);
    if ui.selected.None? || save.None? {
      return;
    }
    LogKeepsStatus(ui.console, Info, BackupStart);
    var c0 := Log(ui.console, Info, BackupStart);
    LogKeepsStatus(c0, Info, FirstRead);
    var c1 := Log(c0, Info, FirstRead);
    RunKeepsStatus(c1, exeExists, read1.proc);
    var step1 := ReadInto(c1, fs, exeExists, Temp1(tempDir), read1);
    if step1.fault.Some? {
      LogKeepsStatus(step1.console, Error, ErrorMessage(step1.fault.value));
    } else {
      LogKeepsStatus(step1.console, Info, SecondRead);
      var c2 := Log(step1.console, Info, SecondRead);
      RunKeepsStatus(c2, exeExists, read2.proc);
      var step2 := ReadInto(c2, step1.fs, exeExists, Temp2(tempDir), read2);
      if step2.fault.Some? {
        LogKeepsStatus(step2.console, Error, ErrorMessage(step2.fault.value));
      } else {
        ValidateKeepsStatus(step2.console, step2.fs, Temp1(tempDir), Temp2(tempDir), save.value);
      }
    }
  }

  lemma ValidateKeepsStatus(c: Console, fs: Fs, temp1: Path, temp2: Path, final: Path)
    requires StatusReflectsLog(c)
    ensures StatusReflectsLog(Validate(c, fs, temp1, temp2, final).console)
  {
    LogKeepsStatus(c, Warn, Validating);
    var c' := Log(c, Warn, Validating);
    LogKeepsStatus(c', Level.Success, SavedMessage(final));
    LogKeepsStatus(c', Error, MismatchMessage);
    var stored := StoreDumps(fs, temp1, temp2, final);
    if stored.outcome.Failure? {
      LogKeepsStatus(c', Error, ErrorMessage(stored.outcome.error));
    }
  }
}

=== FILE: operations.dfy ===
/** The button handlers that drive flashrom: write, smart backup (the read
    button), detect, and the file comparison that needs no hardware. */
module Operations {
  import opened Wrappers
  import opened Text
  import opened Events
  import opened Faults
  import opened Session
  import opened Programmer
  import opened Runner
  import opened FileStore
  import opened Backup

  function LoadedMessage(path: Path): string
  {
    "Arquivo carregado: " + FileName(path)
  }

  /** `BtnSelectFile_Click`, with `picked` the file dialog's answer (`None`
      when cancelled): the chosen file becomes the firmware and is logged. */
  function SelectFile(ui: Ui, picked: Option<Path>): (r: Ui)
    ensures r.known == ui.known && r.selected == ui.selected && r.indicator == ui.indicator
    ensures r.baudText == ui.baudText
    ensures picked.None? ==> r == ui
    ensures picked.Some? ==> r.firmware == picked && r.console == Log(ui.console, Info, LoadedMessage(picked.value))
  {
    match picked
    case None => ui
    case Some(path) => ui.(firmware := Some(path), console := Log(ui.console, Info, LoadedMessage(path)))
  }

  // ---------------------------------------------------------------- write

  const NoPortError: string := "ERRO: Nenhuma porta selecionada."
  const PromptWarning: string := "Nenhum arquivo pré-selecionado. Abrindo seletor..."
  const WriteStart: string := "--- INICIANDO GRAVAÇÃO ---"
  const WriteDone: string := "Gravação concluída com SUCESSO!"

  function WriteFailedMessage(f: Fault): string
  {
    "Falha na gravação: " + Message(f)
  }

  /** The firmware path once the write button has prompted for one (the
      dialog is shown only when no path is pre-selected, and a cancelled
      dialog leaves the path as it was). */
  function FirmwareAfterPrompt(ui: Ui, picked: Option<Path>): Option<Path>
  {
    if IsNullOrEmpty(ui.firmware) && picked.Some? then picked else ui.firmware
  }

  /** Without a pre-selected firmware path the write button logs a WARN and
      opens the file picker, which logs the file picked. */
  function PromptForFirmware(ui: Ui, picked: Option<Path>): (r: Ui)
    ensures r.known == ui.known && r.selected == ui.selected && r.indicator == ui.indicator
    ensures r.baudText == ui.baudText
    ensures r.firmware == FirmwareAfterPrompt(ui, picked)
    ensures IsNullOrEmpty(ui.firmware) ==>
              r.console == (if picked.Some?
                            then Log(Log(ui.console, Warn, PromptWarning), Info, LoadedMessage(picked.value))
                            else Log(ui.console, Warn, PromptWarning))
    ensures !IsNullOrEmpty(ui.firmware) ==> r == ui
  {
    if IsNullOrEmpty(ui.firmware) then
      SelectFile(ui.(console := Log(ui.console, Warn, PromptWarning)), picked)
    else ui
  }

  datatype WriteOutcome = NotStarted | Written | WriteFailed(fault: Fault)

  /** The event that closes a write that got past the gates. */
  function WriteVerdictEvent(outcome: WriteOutcome): LogEvent
  {
    match outcome
    case WriteFailed(f) => LogEvent(Error, WriteFailedMessage(f))
    case _ => LogEvent(Level.Success, WriteDone)
  }

  /** The window afterwards and the argument strings of the processes started. */
  datatype WriteReport = WriteReport(ui: Ui, launched: seq<string>, outcome: WriteOutcome)

  /** `BtnWrite_Click`. `picked` is the file dialog's answer if it is shown,
      `confirmed` whether the operator answered Yes, `exeExists` whether
      flashrom.exe is present, `proc` what the process does if started. */
  function WriteFirmware(ui: Ui, picked: Option<Path>, confirmed: bool, exeExists: bool, proc: ProcessResult): (r: WriteReport)
    ensures r.ui.known == ui.known && r.ui.selected == ui.selected && r.ui.indicator == ui.indicator
    ensures r.ui.baudText == ui.baudText
    ensures ui.selected.Some? ==> r.ui.firmware == FirmwareAfterPrompt(ui, picked)
    // the gates: no spec, still no firmware after the prompt, no confirmation
    ensures r.outcome == NotStarted <==>
              ui.selected.None? || IsNullOrEmpty(FirmwareAfterPrompt(ui, picked)) || !confirmed
    ensures ui.selected.None? ==>
              r.ui.console == Log(ui.console, Error, NoPortError) && r.ui.firmware == ui.firmware
    ensures r.outcome == NotStarted ==> r.launched == []
    // past the gates: exactly one flashrom run with the write arguments
    ensures r.outcome != NotStarted ==>
              var spec := ProgrammerSpec(ui.selected, ui.baudText).value;
              var path := FirmwareAfterPrompt(ui, picked).value;
              && r.launched == (if exeExists then [Arguments(spec, Write(path))] else [])
              && (r.outcome == Written <==> exeExists && proc.exitCode == 0)
              && (r.outcome.WriteFailed? ==> r.outcome.fault == (if exeExists then ProcessFailed else ExecutableNotFound))
              && EndsWith(r.ui.console, WriteVerdictEvent(r.outcome))
    // the console: the prompt's events, then the start WARN, the output and the verdict
    ensures ui.selected.Some? && r.outcome == NotStarted ==>
              r.ui.console == PromptForFirmware(ui, picked).console
    ensures r.outcome != NotStarted ==>
              r.ui.console.events
              == PromptForFirmware(ui, picked).console.events + [LogEvent(Warn, WriteStart)]
                 + (if exeExists then CmdEvents(VisibleLines(proc.lines)) else [])
                 + [WriteVerdictEvent(r.outcome)]
  {
    match ProgrammerSpec(ui.selected, ui.baudText)
    case None =>
      WriteReport(ui.(console := Log(ui.console, Error, NoPortError)), [], NotStarted)
    case Some(spec) =>
      var u := PromptForFirmware(ui, picked);
      if IsNullOrEmpty(u.firmware) || !confirmed then WriteReport(u, [], NotStarted)
      else
        var path := u.firmware.value;
        var run := RunFlashrom(Log(u.console, Warn, WriteStart), exeExists, proc);
        var launched := if run.started then [Arguments(spec, Write(path))] else [];
        match run.fault
        case None =>
          WriteReport(u.(console := Log(run.console, Level.Success, WriteDone)), launched, Written)
        case Some(f) =>
          WriteReport(u.(console := Log(run.console, Error, WriteFailedMessage(f))), launched, WriteFailed(f))
  }

  /** With a firmware path pre-selected and the operator confirming, the
      write logs exactly the start WARN, the visible output of the run as CMD
      and the verdict, and writes that path. */
  lemma PreselectedWriteEvents(ui: Ui, picked: Option<Path>, exeExists: bool, proc: ProcessResult)
    requires ui.selected.Some? && !IsNullOrEmpty(ui.firmware)
    ensures var r := WriteFirmware(ui, picked, true, exeExists, proc);
            && r.outcome != NotStarted
            && r.launched
               == (if exeExists then [Arguments(ProgrammerSpec(ui.selected, ui.baudText).value, Write(ui.firmware.value))]
                   else [])
            && r.ui.console.events
               == ui.console.events + [LogEvent(Warn, WriteStart)]
                  + (if exeExists then CmdEvents(VisibleLines(proc.lines)) else [])
                  + [WriteVerdictEvent(r.outcome)]
  {
    assert PromptForFirmware(ui, picked) == ui;
  }

  /** Without a pre-selected path, a file picked at the prompt becomes the
      firmware and is written once the operator confirms. */
  lemma PromptedWriteStarts(ui: Ui, path: Path, exeExists: bool, proc: ProcessResult)
    requires ui.selected.Some? && IsNullOrEmpty(ui.firmware) && path != []
    ensures WriteFirmware(ui, Some(path), true, exeExists, proc).outcome != NotStarted
    ensures WriteFirmware(ui, Some(path), true, exeExists, proc).ui.firmware == Some(path)
    ensures WriteFirmware(ui, Some(path), true, exeExists, proc).launched
            == (if exeExists then [Arguments(ProgrammerSpec(ui.selected, ui.baudText).value, Write(path))]
                else [])
  {
    assert FirmwareAfterPrompt(ui, Some(path)) == Some(path);
  }

  /** The console of that write: the prompt WARN, the INFO naming the file,
      the start WARN, the visible output as CMD and the verdict. */
  lemma PromptedWriteEvents(ui: Ui, path: Path, exeExists: bool, proc: ProcessResult)
    requires ui.selected.Some? && IsNullOrEmpty(ui.firmware) && path != []
    ensures var r := WriteFirmware(ui, Some(path), true, exeExists, proc);
            r.ui.console.events
               == ui.console.events
                  + [LogEvent(Warn, PromptWarning), LogEvent(Info, LoadedMessage(path)), LogEvent(Warn, WriteStart)]
                  + (if exeExists then CmdEvents(VisibleLines(proc.lines)) else [])
                  + [WriteVerdictEvent(r.outcome)]
  {
    var r := WriteFirmware(ui, Some(path), true, exeExists, proc);
    PromptedWriteStarts(ui, path, exeExists, proc);
    PromptConsole(ui, path);
    var prompt := [LogEvent(Warn, PromptWarning), LogEvent(Info, LoadedMessage(path))];
    var start := LogEvent(Warn, WriteStart);
    Regroup(ui.console.events, prompt, start,
            if exeExists then CmdEvents(VisibleLines(proc.lines)) else [], WriteVerdictEvent(r.outcome));
    assert prompt + [start] == [prompt[0], prompt[1], start];
  }

  lemma PromptConsole(ui: Ui, path: Path)
    requires IsNullOrEmpty(ui.firmware)
    ensures PromptForFirmware(ui, Some(path)).console.events
            == ui.console.events + [LogEvent(Warn, PromptWarning), LogEvent(Info, LoadedMessage(path))]
  {
  }

  lemma Regroup(a: seq<LogEvent>, p: seq<LogEvent>, s: LogEvent, o: seq<LogEvent>, v: LogEvent)
    ensures (a + p) + [s] + o + [v] == a + (p + [s]) + o + [v]
  {
  }

  // ---------------------------------------------------------------- smart backup

  const SelectPortError: string := "Selecione uma porta COM!"
  const BackupStart: string := "--- INICIANDO SMART BACKUP ---"
  const FirstRead: string := "Lendo (1/2)..."
  const SecondRead: string := "Verificando (2/2)..."
  const Validating: string := "Validando integridade..."
  const MismatchMessage: string := "ERRO DE INTEGRIDADE. Dumps divergentes salvos."

  function SavedMessage(final: Path): string
  {
    "Backup Salvo: " + final
  }

  function ErrorMessage(f: Fault): string
  {
    "Erro: " + Message(f)
  }

  /** The scratch files: the temp directory (which `Path.GetTempPath` returns
      with a trailing separator) joined with "dump1.bin" and "dump2.bin". */
  function Temp1(tempDir: Path): Path { tempDir + "dump1.bin" }

  function Temp2(tempDir: Path): Path { tempDir + "dump2.bin" }

  /** A flashrom read: how the process ends and the image it leaves at the
      target path, if any. */
  datatype DumpRun = DumpRun(proc: ProcessResult, image: Option<Bytes>)

  /** One read into `path`: the console and file system afterwards, whether
      the process started, and the exception it ended with. */
  datatype ReadStep = ReadStep(console: Console, fs: Fs, started: bool, fault: Option<Fault>)

  /** A flashrom read into `path`: the run of `RunFlashrom`, plus the image the
      process leaves at `path` if it started. */
  function ReadInto(c: Console, fs: Fs, exeExists: bool, path: Path, dump: DumpRun): (r: ReadStep)
    ensures r.started == exeExists
    ensures r.fault.None? <==> exeExists && dump.proc.exitCode == 0
    ensures r.fault.Some? ==> r.fault.value == (if exeExists then ProcessFailed else ExecutableNotFound)
    ensures r.console == RunFlashrom(c, exeExists, dump.proc).console
    ensures forall q :: q != path ==> SameAt(fs, r.fs, q)
    ensures !exeExists || dump.image.None? ==> r.fs == fs
    ensures exeExists && dump.image.Some? ==> path in r.fs && r.fs[path] == dump.image.value
  {
    var run := RunFlashrom(c, exeExists, dump.proc);
    var fs' := if run.started && dump.image.Some? then fs[path := dump.image.value] else fs;
    ReadStep(run.console, fs', run.started, run.fault)
  }

  datatype BackupOutcome = Skipped | Completed(verdict: Verdict) | Aborted(fault: Fault)

  datatype Validation = Validation(console: Console, fs: Fs, outcome: BackupOutcome)

  /** The event that closes the comparison step: "Erro: <message>" for an
      exception, SUCCESS for a saved backup, the integrity ERROR otherwise. */
  function ValidateClosing(outcome: BackupOutcome, final: Path): LogEvent
  {
    match outcome
    case Aborted(f) => LogEvent(Error, ErrorMessage(f))
    case Completed(Saved) => LogEvent(Level.Success, SavedMessage(final))
    case _ => LogEvent(Error, MismatchMessage)
  }

  /** The comparison step after both reads: "Validando integridade...", then
      `StoreDumps`, closed by the SUCCESS, integrity ERROR or "Erro:" event. */
  function Validate(c: Console, fs: Fs, temp1: Path, temp2: Path, final: Path): (r: Validation)
    ensures !r.outcome.Skipped?
    ensures r.console.events == c.events + [LogEvent(Warn, Validating), ValidateClosing(r.outcome, final)]
    ensures r.fs == StoreDumps(fs, temp1, temp2, final).fs
    ensures r.outcome.Aborted? <==> StoreDumps(fs, temp1, temp2, final).outcome.Failure?
    ensures r.outcome.Aborted? ==>
              && r.outcome.fault == StoreDumps(fs, temp1, temp2, final).outcome.error
              && EndsWith(r.console, LogEvent(Error, ErrorMessage(r.outcome.fault)))
    ensures r.outcome.Completed? ==>
              && r.outcome.verdict == StoreDumps(fs, temp1, temp2, final).outcome.value
              && EndsWith(r.console, if r.outcome.verdict == Saved then LogEvent(Level.Success, SavedMessage(final))
                                     else LogEvent(Error, MismatchMessage))
  {
    var c' := Log(c, Warn, Validating);
    var stored := StoreDumps(fs, temp1, temp2, final);
    match stored.outcome
    case Failure(e) => Validation(Log(c', Error, ErrorMessage(e)), stored.fs, Aborted(e))
    case Success(Saved) =>
      Validation(Log(c', Level.Success, SavedMessage(final)), stored.fs, Completed(Saved))
    case Success(Mismatch) =>
      Validation(Log(c', Error, MismatchMessage), stored.fs, Completed(Mismatch))
  }

  datatype BackupReport = BackupReport(ui: Ui, fs: Fs, launched: seq<string>, outcome: BackupOutcome)

  /** `BtnRead_Click`: two reads into scratch files, then `Validate`. `save`
      is the save dialog's answer. Any exception is logged as
      "Erro: <message>" and ends the operation. */
  function SmartBackup(ui: Ui, fs: Fs, save: Option<Path>, tempDir: Path, exeExists: bool,
                       read1: DumpRun, read2: DumpRun): (r: BackupReport)
    ensures r.ui.known == ui.known && r.ui.selected == ui.selected && r.ui.indicator == ui.indicator
    ensures r.ui.firmware == ui.firmware && r.ui.baudText == ui.baudText
    ensures r.outcome == Skipped <==> ui.selected.None? || save.None?
    ensures ui.selected.None? ==> r.ui.console == Log(ui.console, Error, SelectPortError) && r.fs == fs
    ensures r.outcome == Skipped ==> r.launched == [] && r.fs == fs
    ensures ui.selected.Some? && save.None? ==> r.ui == ui
    // the runs started: the first read, then the second only if the first succeeded
    ensures r.outcome != Skipped ==>
              var spec := ProgrammerSpec(ui.selected, ui.baudText).value;
              r.launched == (if !exeExists then []
                             else if read1.proc.exitCode != 0 then [Arguments(spec, Read(Temp1(tempDir)))]
                             else [Arguments(spec, Read(Temp1(tempDir))), Arguments(spec, Read(Temp2(tempDir)))])
  {
    match ProgrammerSpec(ui.selected, ui.baudText)
    case None =>
      BackupReport(ui.(console := Log(ui.console, Error, SelectPortError)), fs, [], Skipped)
    case Some(spec) =>
      match save
      case None => BackupReport(ui, fs, [], Skipped)
      case Some(final) =>
        var temp1, temp2 := Temp1(tempDir), Temp2(tempDir);
        var step1 := ReadInto(Log(Log(ui.console, Info, BackupStart), Info, FirstRead), fs, exeExists, temp1, read1);
        var launched1 := if step1.started then [Arguments(spec, Read(temp1))] else [];
        if step1.fault.Some? then
          var f := step1.fault.value;
          BackupReport(ui.(console := Log(step1.console, Error, ErrorMessage(f))), step1.fs, launched1, Aborted(f))
        else
          var step2 := ReadInto(Log(step1.console, Info, SecondRead), step1.fs, exeExists, temp2, read2);
          var launched2 := launched1 + [Arguments(spec, Read(temp2))];
          if step2.fault.Some? then
            var f := step2.fault.value;
            BackupReport(ui.(console := Log(step2.console, Error, ErrorMessage(f))), step2.fs, launched2, Aborted(f))
          else
            var v := Validate(step2.console, step2.fs, temp1, temp2, final);
            BackupReport(ui.(console := v.console), v.fs, launched2, v.outcome)
  }

  /** A missing executable or a failed read aborts the backup with the
      matching fault, logged as the last event; a missing executable leaves
      the files alone. */
  lemma SmartBackupAborts(ui: Ui, fs: Fs, save: Option<Path>, tempDir: Path, exeExists: bool,
                          read1: DumpRun, read2: DumpRun)
    requires ui.selected.Some? && save.Some?
    ensures var r := SmartBackup(ui, fs, save, tempDir, exeExists, read1, read2);
            && (!exeExists ==> r.outcome == Aborted(ExecutableNotFound) && r.fs == fs)
            && (exeExists && (read1.proc.exitCode != 0 || read2.proc.exitCode != 0) ==>
                  r.outcome == Aborted(ProcessFailed))
            && (r.outcome.Aborted? ==> EndsWith(r.ui.console, LogEvent(Error, ErrorMessage(r.outcome.fault))))
  {
    var temp1 := Temp1(tempDir);
    var c0 := Log(Log(ui.console, Info, BackupStart), Info, FirstRead);
    var step1 := ReadInto(c0, fs, exeExists, temp1, read1);
    if step1.fault.None? {
      var step2 := ReadInto(Log(step1.console, Info, SecondRead), step1.fs, exeExists, Temp2(tempDir), read2);
      if step2.fault.None? {
        var v := Validate(step2.console, step2.fs, temp1, Temp2(tempDir), save.value);
      }
    }
  }

  /** The events a started backup logs before its first read's output. */
  function BackupOpening(ui: Ui): seq<LogEvent>
  {
    ui.console.events + [LogEvent(Info, BackupStart), LogEvent(Info, FirstRead)]
  }

  /** Without the executable the backup logs its two opening INFO events and
      the "Erro:" of the missing executable. */
  lemma BackupEventsWithoutExecutable(ui: Ui, fs: Fs, save: Option<Path>, tempDir: Path,
                                      read1: DumpRun, read2: DumpRun)
    requires ui.selected.Some? && save.Some?
    ensures SmartBackup(ui, fs, save, tempDir, false, read1, read2).ui.console.events
            == BackupOpening(ui) + [LogEvent(Error, ErrorMessage(ExecutableNotFound))]
  {
    var c0 := Log(Log(ui.console, Info, BackupStart), Info, FirstRead);
    assert c0.events == BackupOpening(ui);
  }

  /** A first read that exits with an error: the opening events, that read's
      output, and "Erro: Processo flashrom falhou.". */
  lemma BackupEventsFirstReadFails(ui: Ui, fs: Fs, save: Option<Path>, tempDir: Path,
                                   read1: DumpRun, read2: DumpRun)
    requires ui.selected.Some? && save.Some? && read1.proc.exitCode != 0
    ensures SmartBackup(ui, fs, save, tempDir, true, read1, read2).ui.console.events
            == BackupOpening(ui) + CmdEvents(VisibleLines(read1.proc.lines))
               + [LogEvent(Error, ErrorMessage(ProcessFailed))]
  {
    var c0 := Log(Log(ui.console, Info, BackupStart), Info, FirstRead);
    assert c0.events == BackupOpening(ui);
  }

  /** A first read that succeeds: the opening events, its output,
      "Verificando (2/2)...", the second read's output, then the "Erro:" of a
      failed second read or the two events of the comparison step. */
  lemma BackupEventsFirstReadSucceeds(ui: Ui, fs: Fs, save: Option<Path>, tempDir: Path,
                                      read1: DumpRun, read2: DumpRun)
    requires ui.selected.Some? && save.Some? && read1.proc.exitCode == 0
    ensures var r := SmartBackup(ui, fs, save, tempDir, true, read1, read2);
            r.ui.console.events
            == BackupOpening(ui) + CmdEvents(VisibleLines(read1.proc.lines))
               + [LogEvent(Info, SecondRead)] + CmdEvents(VisibleLines(read2.proc.lines))
               + (if read2.proc.exitCode != 0 then [LogEvent(Error, ErrorMessage(ProcessFailed))]
                  else [LogEvent(Warn, Validating), ValidateClosing(r.outcome, save.value)])
  {
    var temp1, temp2 := Temp1(tempDir), Temp2(tempDir);
    var c0 := Log(Log(ui.console, Info, BackupStart), Info, FirstRead);
    assert c0.events == BackupOpening(ui);
    var step1 := ReadInto(c0, fs, true, temp1, read1);
    var c1 := Log(step1.console, Info, SecondRead);
    var step2 := ReadInto(c1, step1.fs, true, temp2, read2);
    var middle := BackupOpening(ui) + CmdEvents(VisibleLines(read1.proc.lines))
                  + [LogEvent(Info, SecondRead)] + CmdEvents(VisibleLines(read2.proc.lines));
    assert step2.console.events == middle;
    if read2.proc.exitCode == 0 {
      var v := Validate(step2.console, step2.fs, temp1, temp2, save.value);
      assert SmartBackup(ui, fs, save, tempDir, true, read1, read2).ui.console == v.console;
    }
  }

  /** When both reads succeed and leave images, the outcome rule decides:
      equal images are saved to the destination, different ones are kept as
      ".err1"/".err2" with the destination untouched; the scratch files are
      gone and no other file changes. */
  lemma SmartBackupStores(ui: Ui, fs: Fs, save: Option<Path>, tempDir: Path, exeExists: bool,
                          read1: DumpRun, read2: DumpRun)
    requires ui.selected.Some? && save.Some? && exeExists
    requires read1.proc.exitCode == 0 && read2.proc.exitCode == 0
    requires read1.image.Some? && read2.image.Some?
    requires DistinctTargets(Temp1(tempDir), Temp2(tempDir), save.value)
    ensures var r := SmartBackup(ui, fs, save, tempDir, exeExists, read1, read2);
            var final := save.value;
            var d1 := read1.image.value;
            var d2 := read2.image.value;
            && r.outcome == Completed(if d1 == d2 then Saved else Mismatch)
            && Temp1(tempDir) !in r.fs && Temp2(tempDir) !in r.fs
            && (d1 == d2 ==> final in r.fs && r.fs[final] == d1
                             && SameAt(fs, r.fs, Err1(final)) && SameAt(fs, r.fs, Err2(final)))
            && (d1 != d2 ==> Err1(final) in r.fs && r.fs[Err1(final)] == d1
                             && Err2(final) in r.fs && r.fs[Err2(final)] == d2
                             && SameAt(fs, r.fs, final))
            && (forall q :: (q != final && q != Err1(final) && q != Err2(final)
                             && q != Temp1(tempDir) && q != Temp2(tempDir)) ==> SameAt(fs, r.fs, q))
            && EndsWith(r.ui.console, if d1 == d2 then LogEvent(Level.Success, SavedMessage(final))
                                      else LogEvent(Error, MismatchMessage))
  {
    var final := save.value;
    var temp1, temp2 := Temp1(tempDir), Temp2(tempDir);
    var c0 := Log(Log(ui.console, Info, BackupStart), Info, FirstRead);
    var step1 := ReadInto(c0, fs, exeExists, temp1, read1);
    var step2 := ReadInto(Log(step1.console, Info, SecondRead), step1.fs, exeExists, temp2, read2);
    var fs2 := step2.fs;
    assert temp1 in fs2 && fs2[temp1] == read1.image.value by {
      assert SameAt(step1.fs, fs2, temp1);
    }
    var stored := StoreDumps(fs2, temp1, temp2, final);
    StoreDumpsPlacement(fs2, temp1, temp2, final);
    assert SmartBackup(ui, fs, save, tempDir, exeExists, read1, read2).fs == stored.fs;
    forall q | q != final && q != Err1(final) && q != Err2(final) && q != temp1 && q != temp2
      ensures SameAt(fs, stored.fs, q)
    {
      assert SameAt(fs, step1.fs, q);
      assert SameAt(step1.fs, fs2, q);
      assert SameAt(fs2, stored.fs, q);
    }
    forall q | q == final || q == Err1(final) || q == Err2(final)
      ensures SameAt(fs, fs2, q)
    {
      assert SameAt(fs, step1.fs, q);
      assert SameAt(step1.fs, fs2, q);
    }
  }

  // ---------------------------------------------------------------- detect

  const DetectWarning: string := "Selecione uma porta primeiro."

  datatype DetectReport = DetectReport(ui: Ui, launched: seq<string>)

  /** `BtnDetect_Click`: flashrom is started with the spec alone and not
      awaited, so its output reaches the console but a failure is never
      reported. */
  function DetectChip(ui: Ui, exeExists: bool, proc: ProcessResult): (r: DetectReport)
    ensures r.ui.known == ui.known && r.ui.selected == ui.selected && r.ui.indicator == ui.indicator
    ensures r.ui.firmware == ui.firmware && r.ui.baudText == ui.baudText
    ensures ui.selected.None? ==> r.ui.console == Log(ui.console, Warn, DetectWarning) && r.launched == []
    ensures ui.selected.Some? ==>
              && r.launched == (if exeExists then [Arguments(ProgrammerSpec(ui.selected, ui.baudText).value, Detect)] else [])
              && r.ui.console.events == ui.console.events + (if exeExists then CmdEvents(VisibleLines(proc.lines)) else [])
              && r.ui.console.statusLine == ui.console.statusLine
  {
    match ProgrammerSpec(ui.selected, ui.baudText)
    case None => DetectReport(ui.(console := Log(ui.console, Warn, DetectWarning)), [])
    case Some(spec) =>
      var run := RunFlashrom(ui.console, exeExists, proc);
      DetectReport(ui.(console := run.console), if run.started then [Arguments(spec, Detect)] else [])
  }

  // ---------------------------------------------------------------- compare

  const IdenticalMessage: string := "RESULTADO: IDÊNTICOS"
  const DifferentMessage: string := "RESULTADO: DIFERENTES"

  datatype CompareOutcome = Cancelled | Crashed(fault: Fault) | Compared(identical: bool)

  function ComparingMessage(first: Path, second: Path): string
  {
    "Comparando " + FileName(first) + " x " + FileName(second)
  }

  /** `BtnCompare_Click`: two file dialogs, then a byte-for-byte comparison
      logged as SUCCESS "identical" or ERROR "different". A missing file
      raises an exception the handler does not catch. */
  method CompareFiles(c: Console, fs: Fs, first: Option<Path>, second: Option<Path>)
    returns (r: Console, outcome: CompareOutcome)
    ensures first.None? || second.None? <==> outcome == Cancelled
    ensures outcome == Cancelled ==> r == c
    ensures outcome.Crashed? <==> outcome != Cancelled && (first.value !in fs || second.value !in fs)
    ensures outcome.Crashed? ==> r == Log(c, Info, ComparingMessage(first.value, second.value))
    ensures outcome.Crashed? ==>
              outcome.fault == FileMissing(if first.value !in fs then first.value else second.value)
    ensures outcome.Compared? ==>
              r.statusLine == (if outcome.identical then IdenticalMessage else DifferentMessage)
    ensures StatusReflectsLog(c) ==> StatusReflectsLog(r)
    ensures outcome.Compared? ==>
              && (outcome.identical <==> fs[first.value] == fs[second.value])
              && r.events == c.events
                 + [LogEvent(Info, ComparingMessage(first.value, second.value)),
                    if outcome.identical then LogEvent(Level.Success, IdenticalMessage)
                    else LogEvent(Error, DifferentMessage)]
  {
    if first.None? || second.None? {
      return c, Cancelled;
    }
    r := Log(c, Info, ComparingMessage(first.value, second.value));
    var bytes1 := ReadAllBytes(fs, first.value);
    if bytes1.Failure? {
      return r, Crashed(bytes1.error);
    }
    var bytes2 := ReadAllBytes(fs, second.value);
    if bytes2.Failure? {
      return r, Crashed(bytes2.error);
    }
    var eq := SequenceEqual(bytes1.value, bytes2.value);
    ghost var opening := r.events[|r.events| - 1];
    if eq {
      r := Log(r, Level.Success, IdenticalMessage);
    } else {
      r := Log(r, Error, DifferentMessage);
    }
    assert r.events == c.events + [opening, r.events[|r.events| - 1]];
    outcome := Compared(eq);
  }
}

=== FILE: ports.dfy ===
/** Port lists and the LINQ operations the reconciliation step applies to them. */
module Ports {
  import opened Wrappers

  /** A name returned by the serial port enumeration, such as "COM3". */
  type Port = string

  predicate NoDup(s: seq<Port>)
  {
    forall i, j :: 0 <= i < j < |s| ==> s[i] != s[j]
  }

  function SetOf(s: seq<Port>): set<Port>
  {
    set x | x in s
  }

  /** `Except` as LINQ evaluates it: the elements of `a` outside `excluded`,
      in their order in `a`, each yielded once. */
  function ExceptFrom(a: seq<Port>, excluded: set<Port>): (r: seq<Port>)
    ensures forall x :: x in r <==> x in a && x !in excluded
    ensures NoDup(r)
    ensures r != [] ==> FirstOutside(a, excluded, r[0])
    decreases a
  {
    if a == [] then []
    else if a[0] in excluded then
      var rest := ExceptFrom(a[1..], excluded);
      assert rest != [] ==> FirstOutside(a, excluded, rest[0]) by {
        if rest != [] {
          var i :| 0 <= i < |a[1..]| && a[1..][i] == rest[0] && rest[0] !in excluded
                   && forall j :: 0 <= j < i ==> a[1..][j] in excluded;
          assert forall j :: 0 <= j < i + 1 ==> a[j] in excluded by {
            forall j | 0 <= j < i + 1 ensures a[j] in excluded {
              if j > 0 { assert a[j] == a[1..][j - 1]; }
            }
          }
        }
      }
      rest
    else
      var rest := ExceptFrom(a[1..], excluded + {a[0]});
      assert FirstOutside(a, excluded, a[0]) by {
        assert 0 < |a| && a[0] !in excluded;
      }
      [a[0]] + rest
  }

  /** `x` is the first element of `a` (in `a`'s own order) that is not in `excluded`. */
  ghost predicate FirstOutside(a: seq<Port>, excluded: set<Port>, x: Port)
  {
    exists i :: 0 <= i < |a| && a[i] == x && x !in excluded
                && forall j :: 0 <= j < i ==> a[j] in excluded
  }

  /** There is only one such first element. */
  lemma FirstOutsideUnique(a: seq<Port>, excluded: set<Port>, x: Port, y: Port)
    requires FirstOutside(a, excluded, x) && FirstOutside(a, excluded, y)
    ensures x == y
  {
    var i :| 0 <= i < |a| && a[i] == x && x !in excluded && forall j :: 0 <= j < i ==> a[j] in excluded;
    var k :| 0 <= k < |a| && a[k] == y && y !in excluded && forall j :: 0 <= j < k ==> a[j] in excluded;
  }

  /** `current.Except(known).FirstOrDefault()`, `None` standing for `null`. */
  function NewPort(current: seq<Port>, known: seq<Port>): (r: Option<Port>)
    ensures r.None? <==> forall x :: x in current ==> x in known
    ensures r.Some? ==> FirstOutside(current, SetOf(known), r.value)
  {
    var arrived := ExceptFrom(current, SetOf(known));
    if arrived == [] then None else Some(arrived[0])
  }

  lemma {:induction false} SetOfBound(s: seq<Port>)
    ensures |SetOf(s)| <= |s|
    decreases s
  {
    if s != [] {
      SetOfBound(s[1..]);
      assert SetOf(s) == {s[0]} + SetOf(s[1..]);
    }
  }

  lemma {:induction false} SetOfNoDup(s: seq<Port>)
    requires NoDup(s)
    ensures |SetOf(s)| == |s|
    decreases s
  {
    if s != [] {
      SetOfNoDup(s[1..]);
      assert s[0] !in SetOf(s[1..]) by {
        forall k | 0 <= k < |s[1..]| ensures s[1..][k] != s[0] {
          assert s[1..][k] == s[k + 1];
        }
      }
      assert SetOf(s) == {s[0]} + SetOf(s[1..]);
    }
  }

  /** Pigeonhole: an enumeration without repeated names that is longer than
      the known list holds a name the known list lacks. */
  lemma GrowthHasNewPort(current: seq<Port>, known: seq<Port>)
    requires NoDup(current)
    requires |current| > |known|
    ensures NewPort(current, known).Some?
  {
    if forall x :: x in current ==> x in known {
      assert SetOf(current) <= SetOf(known);
      SetOfNoDup(current);
      SetOfBound(known);
      assert |SetOf(current)| <= |SetOf(known)| by {
        SubsetCard(SetOf(current), SetOf(known));
      }
      assert false;
    }
  }

  lemma SubsetCard(a: set<Port>, b: set<Port>)
    requires a <= b
    ensures |a| <= |b|
  {
    assert b == a + (b - a);
  }
}

=== FILE: programmer.dfy ===
/** The programmer spec handed to flashrom and the argument strings of the
    three invocations (write, read, detect). */
module Programmer {
  import opened Wrappers
  import opened Text
  import opened Ports

  const DefaultBaud: string := "115200"
  const SpecPrefix: string := "serprog:dev="

  /** The baud rate used: the baud box's text, or 115200 when that text is
      null or white space. */
  function EffectiveBaud(baudText: Option<string>): (baud: string)
    ensures !IsBlank(baud)
    ensures IsNullOrWhiteSpace(baudText) ==> baud == DefaultBaud
    ensures !IsNullOrWhiteSpace(baudText) ==> baud == baudText.value
  {
    if IsNullOrWhiteSpace(baudText) then
      assert DefaultBaud[0] == '1';
      DefaultBaud
    else baudText.value
  }

  /** `GetProgrammerString`: `None` exactly when no port is selected, and
      otherwise "serprog:dev=<port>:<baud>". */
  function ProgrammerSpec(selected: Option<Port>, baudText: Option<string>): (spec: Option<string>)
    ensures spec.None? <==> selected.None?
    ensures spec.Some? ==> spec.value == SpecPrefix + selected.value + ":" + EffectiveBaud(baudText)
  {
    match selected
    case None => None
    case Some(port) => Some(SpecPrefix + port + ":" + EffectiveBaud(baudText))
  }

  /** The index of the first occurrence of `c` in `s`. */
  function IndexOf(s: string, c: char): (r: Option<nat>)
    ensures r.None? <==> c !in s
    ensures r.Some? ==> r.value < |s| && s[r.value] == c && c !in s[..r.value]
  {
    if s == [] then None
    else if s[0] == c then Some(0)
    else match IndexOf(s[1..], c)
      case None => None
      case Some(i) =>
        assert s[..i + 1] == [s[0]] + s[1..][..i];
        Some(i + 1)
  }

  /** Reads a programmer spec back into its port and baud, splitting at the
      first ':' after the prefix. */
  function ParseSpec(spec: string): Option<(Port, string)>
  {
    if |spec| < |SpecPrefix| || spec[..|SpecPrefix|] != SpecPrefix then None
    else
      var rest := spec[|SpecPrefix|..];
      match IndexOf(rest, ':')
      case None => None
      case Some(i) => Some((rest[..i], rest[i + 1..]))
  }

  /** For a port name without ':' (as serial port names are), the spec
      determines the port and the baud actually used. */
  lemma SpecRoundTrip(port: Port, baudText: Option<string>)
    requires ':' !in port
    ensures ParseSpec(ProgrammerSpec(Some(port), baudText).value) == Some((port, EffectiveBaud(baudText)))
  {
    var spec := ProgrammerSpec(Some(port), baudText).value;
    var baud := EffectiveBaud(baudText);
    assert spec[..|SpecPrefix|] == SpecPrefix;
    var rest := spec[|SpecPrefix|..];
    assert rest == port + ":" + baud;
    assert rest[|port|] == ':';
    assert rest[..|port|] == port;
    IndexOfFirst(rest, ':', |port|);
  }

  /** The first position holding `c` is what `IndexOf` finds. */
  lemma {:induction false} IndexOfFirst(s: string, c: char, k: nat)
    requires k < |s| && s[k] == c && c !in s[..k]
    ensures IndexOf(s, c) == Some(k)
    decreases k
  {
    if k > 0 {
      assert s[0] == s[..k][0];
      assert s[1..][..k - 1] == s[..k][1..];
      IndexOfFirst(s[1..], c, k - 1);
    }
  }

  /** The flashrom operation: probe only, write an image, or read one. */
  datatype Action = Detect | Write(path: string) | Read(path: string)

  /** "-p <spec>", followed by ` -w "<path>"` or ` -r "<path>"`. */
  function Arguments(spec: string, action: Action): (args: string)
    ensures |args| >= 3 + |spec| && args[..3] == "-p " && args[3..3 + |spec|] == spec
  {
    match action
    case Detect => "-p " + spec
    case Write(path) => "-p " + spec + " -w \"" + path + "\""
    case Read(path) => "-p " + spec + " -r \"" + path + "\""
  }

  /** Reads an argument string back: the spec runs up to the first blank, and
      what follows is a quoted write or read target. */
  function ParseArguments(args: string): Option<(string, Action)>
  {
    if |args| < 3 || args[..3] != "-p " then None
    else
      var rest := args[3..];
      match IndexOf(rest, ' ')
      case None => Some((rest, Detect))
      case Some(i) =>
        var tail := rest[i..];
        if |tail| < 6 || tail[|tail| - 1] != '"' then None
        else if tail[..5] == " -w \"" then Some((rest[..i], Write(tail[5..|tail| - 1])))
        else if tail[..5] == " -r \"" then Some((rest[..i], Read(tail[5..|tail| - 1])))
        else None
  }

  /** A spec without blanks can be read back from every argument string, so
      the three invocations are told apart and the path is passed intact. */
  lemma ArgumentsRoundTrip(spec: string, action: Action)
    requires ' ' !in spec
    ensures ParseArguments(Arguments(spec, action)) == Some((spec, action))
  {
    var args := Arguments(spec, action);
    assert args[..3] == "-p ";
    match action
    case Detect =>
      assert args[3..] == spec;
    case Write(path) =>
      assert args[3..] == spec + (" -w \"" + path + "\"");
      TargetRoundTrip(spec, " -w \"", path);
    case Read(path) =>
      assert args[3..] == spec + (" -r \"" + path + "\"");
      TargetRoundTrip(spec, " -r \"", path);
  }

  /** The blank opening a quoted target ends the spec. */
  lemma TargetRoundTrip(spec: string, flag: string, path: string)
    requires ' ' !in spec && |flag| == 5 && flag[0] == ' '
    ensures IndexOf(spec + (flag + path + "\""), ' ') == Some(|spec|)
    ensures (spec + (flag + path + "\""))[..|spec|] == spec
    ensures var tail := (spec + (flag + path + "\""))[|spec|..];
            |tail| >= 6 && tail[|tail| - 1] == '"' && tail[..5] == flag && tail[5..|tail| - 1] == path
  {
    var rest := spec + (flag + path + "\"");
    assert rest[..|spec|] == spec;
    IndexOfFirst(rest, ' ', |spec|);
    var tail := rest[|spec|..];
    assert tail == flag + path + "\"";
  }

  /** A flashrom write invocation for a port and baud without blanks (and a
      port without ':') names exactly that port, that baud and that image. */
  lemma WriteInvocationRoundTrip(port: Port, baudText: Option<string>, path: string)
    requires ':' !in port && ' ' !in port && ' ' !in EffectiveBaud(baudText)
    ensures var spec := ProgrammerSpec(Some(port), baudText).value;
            && ParseArguments(Arguments(spec, Write(path))) == Some((spec, Write(path)))
            && ParseSpec(spec) == Some((port, EffectiveBaud(baudText)))
  {
    var baud := EffectiveBaud(baudText);
    var spec := SpecPrefix + port + ":" + baud;
    forall i | 0 <= i < |spec| ensures spec[i] != ' ' {
      if i < |SpecPrefix| {
        assert spec[i] == SpecPrefix[i];
      } else if i < |SpecPrefix| + |port| {
        assert spec[i] == port[i - |SpecPrefix|];
      } else if i > |SpecPrefix| + |port| {
        assert spec[i] == baud[i - |SpecPrefix| - |port| - 1];
      }
    }
    ArgumentsRoundTrip(spec, Write(path));
    SpecRoundTrip(port, baudText);
  }
}

=== FILE: reconciler.dfy ===
/** One run of `AutoDetectPorts`: the fresh enumeration replaces the port list
    and the selection is decided by comparing the list lengths. */
module Reconciler {
  import opened Wrappers
  import opened Text
  import opened Ports
  import opened Events
  import opened Session

  const DisconnectedText: string := "Dispositivo desconectado"
  const RemovedMessage: string := "Porta ativa foi removida."

  function NewDeviceMessage(p: Port): string
  {
    "Dispositivo NOVO detectado: " + p
  }

  /** Everything but the list, the selection, the indicator and the console
      is left alone. */
  predicate KeepsSettings(ui: Ui, r: Ui)
  {
    r.baudText == ui.baudText && r.firmware == ui.firmware
  }

  /** The selection and its display are as before the step; only the
      selection itself is gone. */
  predicate SelectionDropped(ui: Ui, r: Ui)
  {
    r.selected.None? && r.indicator == ui.indicator && r.console == ui.console
  }

  /** `AutoDetectPorts` with `current` the fresh enumeration. Refilling the
      list with the handler detached drops the selection silently; then
        - a longer list selects the first port not in the old list (the
          handler fires: connected, INFO) and logs a SUCCESS event;
        - a shorter list without the previously selected port shows
          "Dispositivo desconectado" and logs one WARN event;
        - a list of the same length re-selects the previous port if it is
          non-empty and still listed (the handler fires again).
      The fresh enumeration becomes the known list on every path. */
  function Reconcile(ui: Ui, current: seq<Port>): (r: Ui)
    ensures r.known == current
    ensures KeepsSettings(ui, r)
    ensures Consistent(r)
    // growth
    ensures |current| > |ui.known| ==>
              forall p :: FirstOutside(current, SetOf(ui.known), p) ==>
                && r.selected == Some(p)
                && r.indicator == Indicator(true, ConnectedText(p))
                && r.console.events == ui.console.events
                     + [LogEvent(Info, SelectedMessage(p)), LogEvent(Level.Success, NewDeviceMessage(p))]
    ensures |current| > |ui.known| && (forall x :: x in current ==> x in ui.known) ==>
              SelectionDropped(ui, r)
    // shrink
    ensures |current| < |ui.known| && ui.selected.Some? && ui.selected.value !in current ==>
              && r.selected.None?
              && r.indicator == Indicator(false, DisconnectedText)
              && r.console.events == ui.console.events + [LogEvent(Warn, RemovedMessage)]
    ensures |current| < |ui.known| && (ui.selected.None? || ui.selected.value in current) ==>
              SelectionDropped(ui, r)
    // same length
    ensures |current| == |ui.known| && !IsNullOrEmpty(ui.selected) && ui.selected.value in current ==>
              && r.selected == ui.selected
              && r.indicator == Indicator(true, ConnectedText(ui.selected.value))
              && r.console.events == ui.console.events + [LogEvent(Info, SelectedMessage(ui.selected.value))]
    ensures |current| == |ui.known| && (IsNullOrEmpty(ui.selected) || ui.selected.value !in current) ==>
              SelectionDropped(ui, r)
  {
    var selectedBefore := ui.selected;
    var refilled := ui.(known := current, selected := None);
    if |current| > |ui.known| then
      match NewPort(current, ui.known)
      case Some(p) =>
        var s := SelectItem(refilled, Some(p));
        forall q | FirstOutside(current, SetOf(ui.known), q) ensures q == p {
          FirstOutsideUnique(current, SetOf(ui.known), p, q);
        }
        s.(console := Log(s.console, Level.Success, NewDeviceMessage(p)))
      case None => refilled
    else if |current| < |ui.known| then
      if selectedBefore.Some? && selectedBefore.value !in current then
        var u := UpdateConnectionStatus(refilled, false, DisconnectedText);
        u.(console := Log(u.console, Warn, RemovedMessage))
      else refilled
    else if !IsNullOrEmpty(selectedBefore) && selectedBefore.value in current then
      SelectItem(refilled, selectedBefore)
    else refilled
  }

  /** A step keeps the window's invariants. */
  lemma ReconcileKeepsWf(ui: Ui, current: seq<Port>)
    requires Wf(ui)
    ensures Wf(Reconcile(ui, current))
  {
    var refilled := ui.(known := current, selected := None);
    if |current| > |ui.known| {
      if NewPort(current, ui.known).Some? {
        var p := NewPort(current, ui.known).value;
        var s := SelectItem(refilled, Some(p));
        LogKeepsStatus(ui.console, Info, SelectedMessage(p));
        LogKeepsStatus(s.console, Level.Success, NewDeviceMessage(p));
      }
    } else if |current| < |ui.known| {
      LogKeepsStatus(ui.console, Warn, RemovedMessage);
    } else if !IsNullOrEmpty(ui.selected) && ui.selected.value in current {
      LogKeepsStatus(ui.console, Info, SelectedMessage(ui.selected.value));
    }
  }

  /** With the enumeration unchanged, a second step keeps the selection and
      the indicator of the first (it only re-affirms the selection). Port names
      are never empty: an empty selected name is not re-selected. */
  lemma ReconcileIdempotent(ui: Ui, current: seq<Port>)
    requires forall i :: 0 <= i < |current| ==> current[i] != ""
    ensures Reconcile(Reconcile(ui, current), current).selected == Reconcile(ui, current).selected
    ensures Reconcile(Reconcile(ui, current), current).indicator == Reconcile(ui, current).indicator
    ensures Reconcile(Reconcile(ui, current), current).known == Reconcile(ui, current).known
  {
    var r1 := Reconcile(ui, current);
    if r1.selected.Some? {
      assert r1.selected.value in current;
    }
  }

  /** An empty port name selected by one step is dropped by the next one with
      the same enumeration, which is why `ReconcileIdempotent` excludes it. */
  lemma EmptyNameNotReaffirmed(ui: Ui)
    requires ui.known == []
    ensures Reconcile(ui, [""]).selected == Some("")
    ensures Reconcile(Reconcile(ui, [""]), [""]).selected.None?
  {
    assert FirstOutside([""], SetOf([]), "") by {
      assert [""][0] == "";
    }
  }

  /** Pigeonhole: when the new enumeration has no repeated name and is longer
      than the known list, the growth branch always finds a new port and
      connects to it. */
  lemma GrowthAlwaysConnects(ui: Ui, current: seq<Port>)
    requires NoDup(current)
    requires |current| > |ui.known|
    ensures Reconcile(ui, current).selected.Some?
    ensures Reconcile(ui, current).indicator.connected
  {
    GrowthHasNewPort(current, ui.known);
  }

  /** A selected port that disappears along with a shrinking list leaves the
      indicator not connected after a single step. */
  lemma RemovalDisconnects(ui: Ui, current: seq<Port>)
    requires ui.selected.Some? && ui.selected.value !in current
    requires |current| < |ui.known|
    ensures !Reconcile(ui, current).indicator.connected
    ensures Reconcile(ui, current).selected.None?
  {
  }

  /** A shorter list that still holds the selected port drops the selection
      but leaves the indicator saying it is connected. */
  lemma ShrinkKeepsStaleIndicator(ui: Ui, current: seq<Port>)
    requires Consistent(ui)
    requires ui.selected.Some? && ui.selected.value in current
    requires |current| < |ui.known|
    ensures Reconcile(ui, current).selected.None?
    ensures Reconcile(ui, current).indicator == Indicator(true, ConnectedText(ui.selected.value))
  {
  }

  /** One port swapped for another (same length): the selection is dropped
      but the indicator still says "Conectado: COM5" for a port that is gone. */
  lemma SwapKeepsStaleIndicator(ui: Ui)
    requires ui.known == ["COM3", "COM5"] && ui.selected == Some("COM5")
    requires Consistent(ui)
    ensures Reconcile(ui, ["COM3", "COM7"]).selected.None?
    ensures Reconcile(ui, ["COM3", "COM7"]).indicator == Indicator(true, "Conectado: COM5")
  {
    assert "COM5" != "COM3" && "COM5" != "COM7";
  }

  /** {COM3} grows to {COM3, COM5}: COM5 is selected, connected, and the
      SUCCESS event is logged. */
  lemma AttachScenario(ui: Ui)
    requires ui.known == ["COM3"]
    ensures Reconcile(ui, ["COM3", "COM5"]).selected == Some("COM5")
    ensures Reconcile(ui, ["COM3", "COM5"]).indicator == Indicator(true, "Conectado: COM5")
    ensures Reconcile(ui, ["COM3", "COM5"]).console.statusLine == "Dispositivo NOVO detectado: COM5"
  {
    var current: seq<Port> := ["COM3", "COM5"];
    assert "COM5" != "COM3";
    assert FirstOutside(current, SetOf(ui.known), "COM5") by {
      assert current[1] == "COM5" && current[0] in SetOf(ui.known);
    }
  }

  /** Selected COM5 is unplugged from {COM3, COM5}: a WARN event, and the
      indicator is no longer connected. */
  lemma DetachScenario(ui: Ui)
    requires ui.known == ["COM3", "COM5"] && ui.selected == Some("COM5")
    ensures Reconcile(ui, ["COM3"]).selected.None?
    ensures Reconcile(ui, ["COM3"]).indicator == Indicator(false, "Dispositivo desconectado")
    ensures Reconcile(ui, ["COM3"]).console.events
            == ui.console.events + [LogEvent(Warn, "Porta ativa foi removida.")]
  {
    assert "COM5" != "COM3";
  }
}

=== FILE: runner.dfy ===
/** `RunFlashromAsync`: one flashrom run, its output logged line by line and
    its exit code turned into success or an exception. */
module Runner {
  import opened Wrappers
  import opened Text
  import opened Events
  import opened Faults

  /** What a finished flashrom process leaves behind: its exit code and the
      output lines in the order they reached the window (stdout and stderr
      interleaved as they arrived). */
  datatype ProcessResult = ProcessResult(exitCode: int, lines: seq<string>)

  /** The lines that reach the console: those that are not null or white space,
      in their original order. */
  function VisibleLines(lines: seq<string>): (r: seq<string>)
    ensures |r| <= |lines|
    ensures forall i :: 0 <= i < |r| ==> !IsBlank(r[i])
    ensures forall l :: l in lines && !IsBlank(l) ==> l in r
    ensures forall l :: l in r ==> l in lines
    ensures (forall i :: 0 <= i < |lines| ==> !IsBlank(lines[i])) ==> r == lines
    decreases lines
  {
    if lines == [] then []
    else if IsBlank(lines[0]) then VisibleLines(lines[1..])
    else [lines[0]] + VisibleLines(lines[1..])
  }

  /** Filtering line by line as the output streams in is the same as filtering
      the whole output at the end. */
  lemma {:induction false} VisibleLinesAppend(a: seq<string>, b: seq<string>)
    ensures VisibleLines(a + b) == VisibleLines(a) + VisibleLines(b)
    decreases a
  {
    if a != [] {
      assert (a + b)[0] == a[0];
      assert (a + b)[1..] == a[1..] + b;
      VisibleLinesAppend(a[1..], b);
    } else {
      assert a + b == b;
    }
  }

  /** A run: the console afterwards, whether a process was started, and the
      exception it ended with, if any. */
  datatype Run = Run(console: Console, started: bool, fault: Option<Fault>)

  /** A missing executable throws before anything starts; otherwise the
      process runs, every visible output line is logged as CMD, and a non-zero
      exit code throws. */
  function RunFlashrom(c: Console, exeExists: bool, proc: ProcessResult): (r: Run)
    ensures r.started <==> exeExists
    ensures r.fault.None? <==> exeExists && proc.exitCode == 0
    ensures r.fault.Some? ==> r.fault.value == (if exeExists then ProcessFailed else ExecutableNotFound)
    ensures r.console.events == c.events + (if exeExists then CmdEvents(VisibleLines(proc.lines)) else [])
    ensures r.console.statusLine == c.statusLine
  {
    if !exeExists then Run(c, false, Some(ExecutableNotFound))
    else
      var logged := LogLines(c, VisibleLines(proc.lines));
      Run(logged, true, if proc.exitCode != 0 then Some(ProcessFailed) else None)
  }

  /** A run keeps the status line in step with the console. */
  lemma RunKeepsStatus(c: Console, exeExists: bool, proc: ProcessResult)
    requires StatusReflectsLog(c)
    ensures StatusReflectsLog(RunFlashrom(c, exeExists, proc).console)
  {
    LogLinesKeepsStatus(c, VisibleLines(proc.lines));
  }
}

=== FILE: session.dfy ===
/** The state of the main window that the operations read and change, and the
    port combo box's selection handler. */
module Session {
  import opened Wrappers
  import opened Ports
  import opened Events

  /** The connection label and the colour of the status dot (green when
      connected, grey otherwise). */
  datatype Indicator = Indicator(connected: bool, text: string)

  /** `known` is the last enumeration; the combo box's item list is filled from
      the same enumeration every time `known` is assigned, so it is the item
      list too. `selected` is the combo box's selected item, `baudText` the
      baud combo box's text (`None` for `null`) and `firmware` the
      pre-selected firmware path. */
  datatype Ui = Ui(
    known: seq<Port>,
    selected: Option<Port>,
    indicator: Indicator,
    console: Console,
    baudText: Option<string>,
    firmware: Option<string>)

  const SelectPrompt: string := "Selecione uma porta..."

  function ConnectedText(p: Port): string
  {
    "Conectado: " + p
  }

  function SelectedMessage(p: Port): string
  {
    "Porta selecionada manualmente: " + p
  }

  /** `UpdateConnectionStatus`: sets the label text and the dot colour, and
      nothing else. */
  function UpdateConnectionStatus(ui: Ui, connected: bool, text: string): (r: Ui)
    ensures r.indicator == Indicator(connected, text)
    ensures r.known == ui.known && r.selected == ui.selected && r.console == ui.console
    ensures r.baudText == ui.baudText && r.firmware == ui.firmware
  {
    ui.(indicator := Indicator(connected, text))
  }

  /** The selection handler, run once the selected item has changed: a
      selection shows "Conectado: <port>" and logs an INFO event, no selection
      shows the prompt and logs nothing. */
  function OnSelectionChanged(ui: Ui): (r: Ui)
    ensures r.selected == ui.selected && r.known == ui.known
    ensures r.baudText == ui.baudText && r.firmware == ui.firmware
    ensures ui.selected.Some? ==>
              && r.indicator == Indicator(true, ConnectedText(ui.selected.value))
              && r.console == Log(ui.console, Info, SelectedMessage(ui.selected.value))
    ensures ui.selected.None? ==>
              r.indicator == Indicator(false, SelectPrompt) && r.console == ui.console
  {
    match ui.selected
    case Some(port) =>
      var u := UpdateConnectionStatus(ui, true, ConnectedText(port));
      u.(console := Log(u.console, Info, SelectedMessage(port)))
    case None =>
      UpdateConnectionStatus(ui, false, SelectPrompt)
  }

  /** Assigning the combo box's selected item: an item outside the list is
      ignored, re-selecting the current item raises no change event, and any
      other change runs the handler. */
  function SelectItem(ui: Ui, item: Option<Port>): (r: Ui)
    ensures r.known == ui.known && r.baudText == ui.baudText && r.firmware == ui.firmware
    ensures item.Some? && item.value in ui.known ==> r.selected == item
    ensures item.None? ==> r.selected.None?
    ensures item == ui.selected || (item.Some? && item.value !in ui.known) ==> r == ui
    ensures item != ui.selected && (item.None? || item.value in ui.known) ==>
              r == OnSelectionChanged(ui.(selected := item))
  {
    if item.Some? && item.value !in ui.known then ui
    else if item == ui.selected then ui
    else OnSelectionChanged(ui.(selected := item))
  }

  /** A selected port is one of the listed ports, and the indicator says it is
      connected to it. */
  predicate Consistent(ui: Ui)
  {
    ui.selected.Some? ==>
      && ui.selected.value in ui.known
      && ui.indicator == Indicator(true, ConnectedText(ui.selected.value))
  }

  /** The invariants every operation of the window keeps. */
  predicate Wf(ui: Ui)
  {
    Consistent(ui) && StatusReflectsLog(ui.console)
  }

  const StartedMessage: string := "Sistema iniciado."

  /** `Window_Loaded`: the start enumeration fills the list, nothing is
      selected, the indicator shows the prompt, the console text is replaced
      by the banner (which is not a logged event) and "Sistema iniciado." is
      logged. */
  function Load(startPorts: seq<Port>, baudText: Option<string>): (r: Ui)
    ensures Wf(r)
    ensures r.known == startPorts && r.selected.None? && r.firmware.None? && r.baudText == baudText
    ensures r.indicator == Indicator(false, SelectPrompt)
    ensures r.console.events == [LogEvent(Info, StartedMessage)]
    ensures r.console.statusLine == StartedMessage
  {
    var u := Ui(startPorts, None, Indicator(false, SelectPrompt), Console([], ""), baudText, None);
    u.(console := Log(u.console, Info, StartedMessage))
  }

  /** Operator selection keeps the window's invariants. */
  lemma SelectItemKeepsWf(ui: Ui, item: Option<Port>)
    requires Wf(ui)
    ensures Wf(SelectItem(ui, item))
  {
    if item.Some? && item.value in ui.known && item != ui.selected {
      LogKeepsStatus(ui.console, Info, SelectedMessage(item.value));
    }
  }
}

=== FILE: text.dfy ===
/** The .NET string predicates the window relies on. */
module Text {
  import opened Wrappers

  /** `char.IsWhiteSpace`: the Unicode space, line and paragraph separators
      plus the control characters U+0009..U+000D and U+0085. */
  predicate IsWhiteSpace(c: char)
  {
    || c == ' ' || ('\t' <= c <= '\r') || c == '\U{85}' || c == '\U{A0}'
    || c == '\U{1680}' || ('\U{2000}' <= c <= '\U{200A}')
    || c == '\U{2028}' || c == '\U{2029}' || c == '\U{202F}'
    || c == '\U{205F}' || c == '\U{3000}'
  }

  /** A non-null string that `string.IsNullOrWhiteSpace` accepts. */
  predicate IsBlank(s: string)
  {
    forall i :: 0 <= i < |s| ==> IsWhiteSpace(s[i])
  }

  /** `string.IsNullOrWhiteSpace`, with `None` for `null`. */
  predicate IsNullOrWhiteSpace(s: Option<string>)
  {
    s.None? || IsBlank(s.value)
  }

  /** `string.IsNullOrEmpty`, with `None` for `null`. */
  predicate IsNullOrEmpty(s: Option<string>)
  {
    s.None? || s.value == ""
  }

  predicate IsSeparator(c: char)
  {
    c == '\\' || c == '/'
  }

  /** The index of the last directory separator in `path`, or -1 when there
      is none (the backward scan of `Path.GetFileName`). */
  function LastSeparator(path: string): (k: int)
    ensures -1 <= k < |path|
    ensures k >= 0 ==> IsSeparator(path[k])
    ensures forall i :: k < i < |path| ==> !IsSeparator(path[i])
  {
    if path == [] then -1
    else if IsSeparator(path[|path| - 1]) then |path| - 1
    else LastSeparator(path[..|path| - 1])
  }

  /** The last component of a path (`Path.GetFileName`, `FileInfo.Name`): a
      suffix without separators that starts right after the last separator,
      or at the start of the path. */
  function FileName(path: string): (name: string)
    ensures |name| <= |path| && name == path[|path| - |name|..]
    ensures forall i :: 0 <= i < |name| ==> !IsSeparator(name[i])
    ensures |name| < |path| ==> IsSeparator(path[|path| - |name| - 1])
  {
    path[LastSeparator(path) + 1..]
  }
}

=== FILE: wrappers.dfy ===
/** Optional values and results, standing in for the `null` returns and the
    exceptions of the window class. */
module Wrappers {

  /** `None` plays the part of a C# `null` reference. */
  datatype Option<+T> = None | Some(value: T)

  /** `Failure` plays the part of an exception caught (or not) by the caller. */
  datatype Result<+R, +E> = Success(value: R) | Failure(error: E)
}
